=== FILE: README.md ===
# Managed-user registry of the browser's sync service

This project models, in Dafny, the managed-user (supervised user) registry
kept by `ManagedUserSyncService` in
`chrome/browser/managed_mode/managed_user_sync_service.cc`, on the
non-ChromeOS build. It has three parts:

- **Avatar-string codec** (`avatar.dfy`, with `decimal.dfy` for the number text).
  An avatar index is stored as `"chrome-avatar-index:<int>"`. `GetAvatarIndex`
  reads it back. The empty string means `kNoAvatar` (-100). The legacy ChromeOS
  dummy index -111 is read as `kNoAvatar`. Any other index must name one of
  the default avatar icons.
- **Keyed store of user records** (`records.dfy`, `registry.dfy`). The managed-users
  preference dictionary is a `map<string, Record>` from user id to the keys
  `name`, `acknowledged`, `masterKey`, `chromeAvatar`, `chromeOsAvatar`,
  `passwordSignatureKey` and `passwordEncryptionKey`. `acknowledged` is an
  `Option<bool>` because the key is absent on locally created users; its
  absence is what the service inspects. The local operations are add, update,
  delete, avatar update and avatar clearing. The store also has a flag for
  whether a sync change processor is attached ("syncing") and a queue of
  pending `GetManagedUsersAsync` callbacks.
- **Sync engine** (`merge.dfy`, `remote_changes.dfy`). `MergeDataAndStartSyncing`
  folds the server's initial data into the store. It uploads every local-only
  user as an ADD, reports the before/added/modified/after counters and runs the
  queued callbacks. `ProcessSyncChanges` applies the server's ADD/UPDATE/DELETE
  changes and reports the observer notifications in order.

Each operation maps the old service state to the new one: most are pure
functions, and the merge, its key enumeration and `GetAllSyncData` are methods.
The changes handed to the sync change processor come back as an `uploaded`
sequence. Observer notifications come back as a sequence of `Event`s. The
`DCHECK`s of the source are preconditions. Two operations pick keys out of the
dictionary in its iteration order: the merge upload and `GetAllSyncData`. They
are methods that enumerate the keys in an unspecified order, and their
contracts treat the result as a duplicate-free list whose set of ids is fixed.

`base::StringToInt` is not part of this model. `Decimal.StringToInt` restates
its behaviour: an optional `-` or `+`, then one or more decimal digits and
nothing else, with a value that fits in an `int`. `profiles::GetDefaultAvatarIconCount()`
is not part of this model either; it is the `iconCount` parameter.

## Model

| member | source | states |
|---|---|---|
| Decimal.StringToInt | chrome/browser/managed_mode/managed_user_sync_service.cc:161 | conversion succeeds exactly when the text is an optional sign followed by one or more digits whose signed value lies in the `int` range, and then yields that value; a negative result needs a leading minus |
| Decimal.FormatInt | chrome/browser/managed_mode/managed_user_sync_service.cc:192 | the `%d` text is non-empty, starts with a minus exactly for negative values, never with a plus, and is otherwise digits without a leading zero (the shortest spelling) |
| Decimal.FormatThenParse | chrome/browser/managed_mode/managed_user_sync_service.cc:192 | converting the `%d` text of any `int` gives back that `int` |
| Avatar.GetAvatarIndex | chrome/browser/managed_mode/managed_user_sync_service.cc:143-183 | the empty string reads as kNoAvatar; a non-empty string without the prefix or with a non-integer remainder is rejected; the dummy index -111 reads as kNoAvatar; a prefixed string whose remainder converts to a valid index reads as that index, and one whose remainder converts to any other non-dummy index is rejected; any accepted index other than kNoAvatar is the converted remainder; every accepted result is kNoAvatar or an icon index in [0, iconCount) |
| Avatar.BuildAvatarString | chrome/browser/managed_mode/managed_user_sync_service.cc:186-193 | the built string is the avatar prefix followed by the `%d` text of the index, and its remainder converts back to the index |
| Avatar.BuildThenParse | chrome/browser/managed_mode/managed_user_sync_service.cc:143-193 | for every `int` index, reading the built string gives kNoAvatar for -111 and -100, the index itself for an icon index, and a rejection otherwise |
| Avatar.AvatarRoundTrip | chrome/browser/managed_mode/managed_user_sync_service.cc:143-193 | every icon index 0 <= i < iconCount survives build-then-parse unchanged |
| Avatar.ParseInvertsBuild | chrome/browser/managed_mode/managed_user_sync_service.cc:164-193 | build-then-parse returns the index exactly when the index is kNoAvatar or an icon index |
| Records.CreateDictionary | chrome/browser/managed_mode/managed_user_sync_service.cc:205-228 | a new entry never carries the `acknowledged` key, keeps the name and keys given, has an empty ChromeOS avatar, stores the built avatar string for the given index, and that string reads back as the given index whenever the index is valid |
| Records.CreateLocalSyncData | chrome/browser/managed_mode/managed_user_sync_service.cc:49-77 | the sync data is tagged with the id and titled with the name; no optional field is set to an empty value and `acknowledged` is set only when true; every getter returns the value passed in |
| Records.CreateSyncDataFromDictionaryEntry | chrome/browser/managed_mode/managed_user_sync_service.cc:79-108 | demands a non-empty name; the sync data is about `id`, and storing it gives back the entry with a missing `acknowledged` key read as false |
| Records.RecordFromSpecifics | chrome/browser/managed_mode/managed_user_sync_service.cc:508-517 | an entry written from server data always carries the `acknowledged` key |
| Records.StoreThenUploadRoundTrip | chrome/browser/managed_mode/managed_user_sync_service.cc:79-108 | re-uploading an entry written from server data and storing it again gives the same entry |
| Registry.UpdateManagedUserImpl | chrome/browser/managed_mode/managed_user_sync_service.cc:261-290 | demands that an add is for a new id and an update for an existing one; stores exactly CreateDictionary(...) under the id and leaves every other entry alone; uploads one ADD or UPDATE about the id when syncing and nothing otherwise; the upload is the entry's sync datum, tagged with the id and titled with the name, and stores back to the new entry |
| Registry.AddManagedUser | chrome/browser/managed_mode/managed_user_sync_service.cc:230-243 | demands a new id; the dictionary grows by one entry, which lacks the `acknowledged` key |
| Registry.UpdateManagedUser | chrome/browser/managed_mode/managed_user_sync_service.cc:245-259 | demands an existing id; the set of ids is unchanged and the rewritten entry lacks the `acknowledged` key |
| Registry.DeleteManagedUser | chrome/browser/managed_mode/managed_user_sync_service.cc:292-308 | demands an existing id; removes exactly that id and keeps every other entry; uploads one DELETE for it when syncing and nothing otherwise |
| Registry.AddThenDelete | chrome/browser/managed_mode/managed_user_sync_service.cc:230-308 | deleting a freshly added user restores the service state |
| Registry.UpdateIsIdempotent | chrome/browser/managed_mode/managed_user_sync_service.cc:245-290 | repeating an update changes neither the state nor what is uploaded |
| Registry.UpdateManagedUserAvatarIfNeeded | chrome/browser/managed_mode/managed_user_sync_service.cc:315-373 | demands an existing id; refuses, changing nothing, exactly when an avatar string is present and the index is not kNoAvatar; otherwise sets only the Chrome avatar (empty for kNoAvatar, else the built string) and uploads one UPDATE when syncing whose datum is built from the new entry's fields, tagged with the id, titled with the name, and stores back to the new entry |
| Registry.ClearManagedUserAvatar | chrome/browser/managed_mode/managed_user_sync_service.cc:375-378 | clearing never fails: only the entry's Chrome avatar changes, it becomes empty and reads as kNoAvatar, and when syncing one UPDATE is uploaded whose datum is built from the cleared entry, tagged with the id, titled with the name, and stores back to the cleared entry |
| Registry.AvatarIsSetOnce | chrome/browser/managed_mode/managed_user_sync_service.cc:339-357 | an icon index written into an empty avatar slot reads back as itself, and a second real index is then refused without change |
| Registry.AddedWithoutAvatarRefusesAvatar | chrome/browser/managed_mode/managed_user_sync_service.cc:218-348 | a user added with kNoAvatar stores the encoded kNoAvatar string, so a later real index is refused by the guard |
| Registry.GetManagedUsersAsync | chrome/browser/managed_mode/managed_user_sync_service.cc:380-390 | when syncing, the callback runs at once with the dictionary; otherwise it is queued at the back and nothing runs |
| Registry.DispatchCallbacks | chrome/browser/managed_mode/managed_user_sync_service.cc:562-570 | every queued callback runs once, in queue order, with the current dictionary, and the queue ends empty |
| Registry.OnLastSignedInUsernameChange | chrome/browser/managed_mode/managed_user_sync_service.cc:537-543 | demands that sync is stopped; the dictionary is emptied and nothing else changes |
| Registry.GetManagedUsers | chrome/browser/managed_mode/managed_user_sync_service.cc:310-313 | demands that sync is running; returns the whole dictionary, every id with its entry |
| SyncMerge.Ingest | chrome/browser/managed_mode/managed_user_sync_service.cc:414-435 | after writing the server's data the ids are the local ids plus the incoming ids, and local-only entries are untouched |
| SyncMerge.IngestLastWriteWins | chrome/browser/managed_mode/managed_user_sync_service.cc:414-435 | for every incoming id the stored entry comes from the last datum about that id |
| SyncMerge.NewIdCountIsNewIds | chrome/browser/managed_mode/managed_user_sync_service.cc:429-432 | the number of data counted as added is the number of incoming ids absent locally |
| SyncMerge.IngestInitialData | chrome/browser/managed_mode/managed_user_sync_service.cc:410-435 | the loop stores the fold of the server's data, and the added and modified counts sum to the number of data |
| SyncMerge.EnumerateKeys | chrome/browser/managed_mode/managed_user_sync_service.cc:437-445 | the dictionary iteration visits every key exactly once |
| SyncMerge.EntriesAsSyncData | chrome/browser/managed_mode/managed_user_sync_service.cc:471-472 | the sync data list follows the given ids, one datum per id, each built from the stored entry |
| SyncMerge.MergeDataAndStartSyncing | chrome/browser/managed_mode/managed_user_sync_service.cc:396-455 | added + modified = number of data; after = before + added, and added = number of new incoming ids; every incoming id is stored and the last datum for it wins; local-only entries are kept; exactly the local ids missing from the incoming data are uploaded, once each, as ADDs of their entries; the service is syncing, the queue is empty, and every queued callback ran with the merged dictionary |
| SyncMerge.StopSyncing | chrome/browser/managed_mode/managed_user_sync_service.cc:457-464 | observers hear that syncing stops; the processor is detached and the dictionary and queue are kept |
| SyncMerge.StoppedServiceUploadsNothing | chrome/browser/managed_mode/managed_user_sync_service.cc:297-360 | once sync has stopped, a delete (early return at :297-299) or an avatar clear (early return at :359-360) uploads nothing |
| SyncMerge.GetAllSyncData | chrome/browser/managed_mode/managed_user_sync_service.cc:466-475 | one datum per stored id, each id once, each the entry's sync datum tagged with its id and titled with its name, storing back to the entry with a missing `acknowledged` key read as false |
| RemoteChanges.ApplyChange | chrome/browser/managed_mode/managed_user_sync_service.cc:485-531 | ADD/UPDATE overwrite the entry with the server's fields; DELETE removes the id; an invalid change does nothing; the acknowledgement notification fires exactly for an upsert of an entry stored without the `acknowledged` key, and the change notification exactly for upserts; an upsert notifies the acknowledgement (if any) and then the change, and a DELETE notifies nothing |
| RemoteChanges.ApplyChanges | chrome/browser/managed_mode/managed_user_sync_service.cc:483-533 | an entry left without the `acknowledged` key was never written by the batch |
| RemoteChanges.SizeAccounting | chrome/browser/managed_mode/managed_user_sync_service.cc:490-527 | under the debug checks, the dictionary grows by the number of ADDs and shrinks by the number of DELETEs |
| RemoteChanges.AcknowledgedAtMostOnce | chrome/browser/managed_mode/managed_user_sync_service.cc:503-506 | within a batch a user is reported acknowledged at most once, and only when it was stored without the `acknowledged` key before the batch |
| RemoteChanges.ProcessSyncChanges | chrome/browser/managed_mode/managed_user_sync_service.cc:477-535 | demands that every change passes the debug checks; keeps the syncing flag and queue; accounts the size by ADDs and DELETEs; reports one change notification per ADD or UPDATE; reports a user acknowledged at most once, only when its first change in the batch is an ADD or UPDATE and it was stored without the `acknowledged` key, and always in that case; a user no change is about keeps its entry; the last change about a user decides its entry; the only notifications are acknowledgements and change notifications, each acknowledgement directly followed by a change notification |
| RemoteChanges.LocallyAddedUserGetsAcknowledged | chrome/browser/managed_mode/managed_user_sync_service.cc:503-506 | the server's first acknowledged UPDATE of a locally added user notifies the observers and records the acknowledgement |
| RemoteChanges.UntouchedEntryKept | chrome/browser/managed_mode/managed_user_sync_service.cc:483-533 | a user no change of the batch is about keeps its entry, or stays absent, and is not reported acknowledged |
| RemoteChanges.LastChangeDecides | chrome/browser/managed_mode/managed_user_sync_service.cc:488-527 | after the batch, the last ADD or UPDATE about a user has stored the server's fields, and a last DELETE has removed the user |
| RemoteChanges.FirstUpsertAcknowledges | chrome/browser/managed_mode/managed_user_sync_service.cc:488-506 | the first ADD or UPDATE about a user stored without the `acknowledged` key reports the acknowledgement |
| RemoteChanges.ExpectedChangesAreValid | chrome/browser/managed_mode/managed_user_sync_service.cc:486-530 | a batch that passes the debug checks contains no invalid change |
| RemoteChanges.ChangedCount | chrome/browser/managed_mode/managed_user_sync_service.cc:489-521 | the batch reports exactly one change notification per ADD or UPDATE and none for a DELETE |
| RemoteChanges.AckNeedsFirstUpsert | chrome/browser/managed_mode/managed_user_sync_service.cc:494-506 | without invalid changes, a user is reported acknowledged only if its first change in the batch is an ADD or UPDATE, so a DELETE followed by an ADD reports nothing |
| RemoteChanges.EventsArePaired | chrome/browser/managed_mode/managed_user_sync_service.cc:503-521 | the batch notifies only acknowledgements and changes, and every acknowledgement comes directly before the change notification of the same write |

## Left out

- ChromeOS build: the `OS_CHROMEOS` branches (the ChromeOS prefix, the ChromeOS image range and writing the ChromeOS avatar) are not modelled; only the desktop branch is.
- PrefService persistence: `DictionaryPrefUpdate`, `RegisterProfilePrefs` and the pref-change registrar are replaced by the service state value.
- Observers: `AddObserver`/`RemoveObserver` are not modelled; notifications are returned as an event sequence. `Shutdown` only notifies observers and is not modelled.
- Callbacks: running a callback is recorded as an `Invocation` with the dictionary it receives. What the callback does is outside the model.
- Sync processor: protobuf encoding, `SyncError` values and the processor's handling of uploads are outside the model. `DCHECK_EQ(MANAGED_USERS, ...)` on the model type is dropped because only managed-user data exists in the model.
- SyncMerge.MergeDataAndStartSyncing: the merge result's error field is not modelled, because it is whatever the external processor returns.
- Stored entries: every writer in the file stores all string keys, so the model gives a record every string field. An entry lacking one of those keys (read as "" by `GetString`) is not representable.
- Dictionary iteration order: the upload and snapshot lists are characterised only as duplicate-free lists with a fixed set of ids, not by their order.

=== FILE: avatar.dfy ===
/** The avatar-string codec of the managed-user registry (non-ChromeOS
    branch): an avatar index is stored as "chrome-avatar-index:<index>". */
module Avatar {
  import opened Options
  import opened Decimal

  const ChromeAvatarPrefix: string := "chrome-avatar-index:"

  /** The index that means "no avatar chosen yet". */
  const NoAvatar: Int32 := -100

  /** A placeholder index that early supervised profiles on ChromeOS stored
      as their Chrome avatar; it is read as `NoAvatar`. */
  const ChromeOSDummyAvatarIndex: Int32 := -111

  predicate HasAvatarPrefix(s: string) {
    |s| > |ChromeAvatarPrefix| && s[..|ChromeAvatarPrefix|] == ChromeAvatarPrefix
  }

  /** The text after the prefix. */
  function Payload(s: string): string
    requires HasAvatarPrefix(s)
  {
    s[|ChromeAvatarPrefix|..]
  }

  /** The avatar index a stored string denotes, or None when the string is
      malformed or the index is neither `NoAvatar` nor one of the
      `iconCount` default avatar icons. */
  function GetAvatarIndex(avatarStr: string, iconCount: nat): (r: Option<Int32>)
    ensures avatarStr == [] ==> r == Some(NoAvatar)
    ensures avatarStr != [] && !HasAvatarPrefix(avatarStr) ==> r.None?
    ensures r.Some? && avatarStr != [] ==> StringToInt(Payload(avatarStr)).Some?
    ensures r.Some? ==> r.value == NoAvatar || 0 <= r.value < iconCount
    ensures HasAvatarPrefix(avatarStr) && StringToInt(Payload(avatarStr)) == Some(ChromeOSDummyAvatarIndex)
            ==> r == Some(NoAvatar)
    ensures HasAvatarPrefix(avatarStr) && StringToInt(Payload(avatarStr)).Some?
            && IsValidIndex(StringToInt(Payload(avatarStr)).value, iconCount)
            ==> r == StringToInt(Payload(avatarStr))
    ensures r.Some? && r.value != NoAvatar ==> r == StringToInt(Payload(avatarStr))
    ensures HasAvatarPrefix(avatarStr) && StringToInt(Payload(avatarStr)).Some?
            && StringToInt(Payload(avatarStr)).value != ChromeOSDummyAvatarIndex
            && !IsValidIndex(StringToInt(Payload(avatarStr)).value, iconCount)
            ==> r.None?
  {
    if avatarStr == [] then Some(NoAvatar)
    else if !HasAvatarPrefix(avatarStr) then None
    else match StringToInt(Payload(avatarStr))
      case None => None
      case Some(parsed) =>
        var index := if parsed == ChromeOSDummyAvatarIndex then NoAvatar else parsed;
        if index == NoAvatar || (0 <= index && index < iconCount) then Some(index) else None
  }

  /** The stored form of an avatar index: the prefix, then the index as
      `%d` prints it. */
  function BuildAvatarString(avatarIndex: Int32): (s: string)
    ensures HasAvatarPrefix(s)
    ensures Payload(s) == FormatInt(avatarIndex)
    ensures StringToInt(Payload(s)) == Some(avatarIndex)
  {
    var s := ChromeAvatarPrefix + FormatInt(avatarIndex);
    assert Payload(s) == FormatInt(avatarIndex);
    FormatThenParse(avatarIndex);
    s
  }

  /** What parsing a built string yields, for every `int` index: the dummy
      index and `NoAvatar` read as `NoAvatar`, an icon index reads as itself,
      and every other index is rejected. */
  lemma BuildThenParse(avatarIndex: Int32, iconCount: nat)
    ensures GetAvatarIndex(BuildAvatarString(avatarIndex), iconCount) ==
      if avatarIndex == ChromeOSDummyAvatarIndex || avatarIndex == NoAvatar then Some(NoAvatar)
      else if 0 <= avatarIndex < iconCount then Some(avatarIndex)
      else None
  {
  }

  /** Every default-icon index survives the round trip unchanged. */
  lemma AvatarRoundTrip(avatarIndex: Int32, iconCount: nat)
    requires 0 <= avatarIndex < iconCount
    ensures GetAvatarIndex(BuildAvatarString(avatarIndex), iconCount) == Some(avatarIndex)
  {
  }

  /** Indices the codec accepts as valid input to `BuildAvatarString`. */
  predicate IsValidIndex(avatarIndex: Int32, iconCount: nat) {
    avatarIndex == NoAvatar || 0 <= avatarIndex < iconCount
  }

  /** Parsing is a left inverse of building exactly on the valid indices.
      (The dummy index's string also parses, but to `NoAvatar`, not to
      itself; see `BuildThenParse`.) */
  lemma ParseInvertsBuild(avatarIndex: Int32, iconCount: nat)
    ensures GetAvatarIndex(BuildAvatarString(avatarIndex), iconCount) == Some(avatarIndex)
            <==> IsValidIndex(avatarIndex, iconCount)
  {
  }
}

=== FILE: decimal.dfy ===
/** Decimal text for 32-bit signed integers: the `%d` conversion used to
    print an avatar index, and the optional-sign parser used to read it back
    (base::StringToInt is not part of this model; its behaviour is restated
    here). */
module Decimal {
  import opened Options

  const MinInt32: int := -0x8000_0000
  const MaxInt32: int := 0x7fff_ffff

  /** The C++ `int` the avatar index is held in. */
  type Int32 = x: int | MinInt32 <= x <= MaxInt32

  predicate IsDigit(c: char) {
    '0' <= c <= '9'
  }

  predicate AllDigits(s: string) {
    forall i :: 0 <= i < |s| ==> IsDigit(s[i])
  }

  function DigitChar(d: nat): (c: char)
    requires d < 10
    ensures IsDigit(c)
    ensures c as int - '0' as int == d
  {
    ('0' as int + d) as char
  }

  function DigitValue(c: char): (d: nat)
    requires IsDigit(c)
    ensures d < 10
  {
    c as int - '0' as int
  }

  /** The shortest decimal spelling of `n` (no leading zeros). */
  function NatToDigits(n: nat): (s: string)
    ensures |s| > 0
    ensures AllDigits(s)
    ensures |s| > 1 ==> s[0] != '0'
    decreases n
  {
    if n < 10 then [DigitChar(n)] else NatToDigits(n / 10) + [DigitChar(n % 10)]
  }

  /** The value of a run of decimal digits, most significant first. */
  function DigitsToNat(s: string): nat
    requires AllDigits(s)
  {
    if s == [] then 0 else DigitsToNat(s[..|s| - 1]) * 10 + DigitValue(s[|s| - 1])
  }

  lemma {:induction false} DigitsRoundTrip(n: nat)
    ensures DigitsToNat(NatToDigits(n)) == n
    decreases n
  {
    if n >= 10 {
      var s := NatToDigits(n / 10) + [DigitChar(n % 10)];
      assert s[..|s| - 1] == NatToDigits(n / 10);
      DigitsRoundTrip(n / 10);
    }
  }

  /** `printf("%d", i)`: a minus sign for negative values, never a plus sign. */
  function FormatInt(i: int): (s: string)
    ensures |s| > 0
    ensures s[0] == '-' <==> i < 0
    ensures s[0] != '+'
    ensures AllDigits(if i < 0 then s[1..] else s)
    ensures var u := if i < 0 then s[1..] else s; |u| > 0 && (|u| > 1 ==> u[0] != '0')
  {
    if i < 0 then "-" + NatToDigits(-i) else NatToDigits(i)
  }

  /** The text after an optional leading sign character. */
  function Unsigned(s: string): (u: string)
    ensures |u| <= |s|
  {
    if |s| > 0 && (s[0] == '-' || s[0] == '+') then s[1..] else s
  }

  /** An optional sign followed by one or more decimal digits. */
  predicate IsDecimal(s: string) {
    |Unsigned(s)| > 0 && AllDigits(Unsigned(s))
  }

  /** The mathematical value a decimal literal denotes, with no range limit. */
  function SignedValue(s: string): int
    requires IsDecimal(s)
  {
    var magnitude: int := DigitsToNat(Unsigned(s));
    if s[0] == '-' then -magnitude else magnitude
  }

  /** base::StringToInt: an optional '-' or '+', then one or more decimal
      digits and nothing else, whose value fits in an `int`.  Leading
      whitespace, a bare sign, any other character and an out-of-range value
      all make the conversion fail. */
  function StringToInt(s: string): (r: Option<Int32>)
    ensures r.Some? ==> |s| > 0 && (IsDigit(s[0]) || s[0] == '-' || s[0] == '+')
    ensures r.Some? ==> forall k :: 1 <= k < |s| ==> IsDigit(s[k])
    ensures r.Some? && r.value < 0 ==> s[0] == '-'
    ensures r.Some? <==> IsDecimal(s) && MinInt32 <= SignedValue(s) <= MaxInt32
    ensures r.Some? ==> r.value == SignedValue(s)
  {
    var digits := Unsigned(s);
    if |digits| == 0 || !AllDigits(digits) then None
    else
      var magnitude: int := DigitsToNat(digits);
      var v: int := if s[0] == '-' then -magnitude else magnitude;
      if MinInt32 <= v <= MaxInt32 then Some(v) else None
  }

  /** Reading back what `%d` printed gives the same integer. */
  lemma FormatThenParse(i: Int32)
    ensures StringToInt(FormatInt(i)) == Some(i)
  {
    var s := FormatInt(i);
    var n: int := i;
    if n < 0 {
      assert Unsigned(s) == NatToDigits(-n);
      DigitsRoundTrip(-n);
    } else {
      assert Unsigned(s) == NatToDigits(i);
      DigitsRoundTrip(i);
    }
  }
}

=== FILE: merge.dfy ===
/** Starting and stopping sync: the initial merge of the server's users into
    the local dictionary, the upload of users only the client knows, and the
    full snapshot of local data. */
module SyncMerge {
  import opened Options
  import opened Records
  import opened Registry

  /** The counters a merge reports; the processor's error is not modelled. */
  datatype MergeResult = MergeResult(
    numItemsBefore: nat,
    numItemsAdded: nat,
    numItemsModified: nat,
    numItemsAfter: nat)

  datatype Stopped = Stopped(service: Service, events: seq<Event>)

  /** The ids the given sync data are about. */
  function IncomingIds(data: seq<SyncData>): (ids: set<string>)
    ensures forall j :: 0 <= j < |data| ==> IdOf(data[j]) in ids
  {
    set j | 0 <= j < |data| :: IdOf(data[j])
  }

  lemma IncomingIdsStep(data: seq<SyncData>, i: nat)
    requires i < |data|
    ensures IncomingIds(data[..i + 1]) == IncomingIds(data[..i]) + {IdOf(data[i])}
  {
  }

  /** The dictionary after writing each received user, in order, over the
      local ones. */
  function Ingest(users: map<string, Record>, data: seq<SyncData>): (r: map<string, Record>)
    ensures r.Keys == users.Keys + IncomingIds(data)
    ensures forall k :: k in users && k !in IncomingIds(data) ==> r[k] == users[k]
    decreases |data|
  {
    if data == [] then users
    else
      var last := data[|data| - 1];
      var prefix := data[..|data| - 1];
      assert data == prefix + [last];
      IncomingIdsStep(data, |data| - 1);
      Ingest(users, prefix)[IdOf(last) := RecordFromSpecifics(SpecificsOf(last))]
  }

  /** For every received id, the last datum about it is what is stored. */
  lemma {:induction false} IngestLastWriteWins(users: map<string, Record>, data: seq<SyncData>, j: nat)
    requires j < |data|
    requires forall later :: j < later < |data| ==> IdOf(data[later]) != IdOf(data[j])
    ensures IdOf(data[j]) in Ingest(users, data)
    ensures Ingest(users, data)[IdOf(data[j])] == RecordFromSpecifics(SpecificsOf(data[j]))
    decreases |data|
  {
    if j < |data| - 1 {
      var prefix := data[..|data| - 1];
      assert prefix[j] == data[j];
      IngestLastWriteWins(users, prefix, j);
    }
  }

  lemma AddFreshSize(a: set<string>, x: string)
    requires x !in a
    ensures |a + {x}| == |a| + 1
  {
  }

  lemma UnionSize(a: set<string>, b: set<string>)
    ensures |a + b| == |a| + |b - a|
  {
  }

  predicate Distinct(ids: seq<string>) {
    forall i, j :: 0 <= i < j < |ids| ==> ids[i] != ids[j]
  }

  /** The keys of a set in some order, each once: the dictionary's iteration
      order, which the model leaves open. */
  method EnumerateKeys(keys: set<string>) returns (ids: seq<string>)
    ensures |ids| == |keys|
    ensures forall k :: k in ids <==> k in keys
    ensures Distinct(ids)
  {
    var remaining := keys;
    ghost var done: set<string> := {};
    ids := [];
    while remaining != {}
      invariant remaining + done == keys && remaining !! done
      invariant forall k :: k in ids <==> k in done
      invariant |ids| == |done|
      invariant Distinct(ids)
      decreases remaining
    {
      var k :| k in remaining;
      AddFreshSize(done, k);
      ids := ids + [k];
      done := done + {k};
      remaining := remaining - {k};
    }
  }

  /** The ids a list of sync data is about, in list order. */
  function DataIds(data: seq<SyncData>): (ids: seq<string>)
    ensures |ids| == |data|
    ensures forall i :: 0 <= i < |data| ==> ids[i] == IdOf(data[i])
  {
    seq(|data|, i requires 0 <= i < |data| => IdOf(data[i]))
  }

  /** The ids a list of changes is about, in list order. */
  function ChangeIds(changes: seq<SyncChange>): (ids: seq<string>)
    ensures |ids| == |changes|
    ensures forall i :: 0 <= i < |changes| ==> ids[i] == IdOf(changes[i].data)
  {
    seq(|changes|, i requires 0 <= i < |changes| => IdOf(changes[i].data))
  }

  /** Sync data for the given stored entries, in the given order. */
  function EntriesAsSyncData(users: map<string, Record>, ids: seq<string>): (data: seq<SyncData>)
    requires forall k :: k in ids ==> k in users && users[k].name != []
    ensures DataIds(data) == ids
    ensures forall i :: 0 <= i < |data| ==> data[i] == CreateSyncDataFromDictionaryEntry(ids[i], users[ids[i]])
  {
    seq(|ids|, i requires 0 <= i < |ids| => CreateSyncDataFromDictionaryEntry(ids[i], users[ids[i]]))
  }

  /** How many of the data are about an id not seen before, locally or
      earlier in the list. */
  function NewIdCount(keys: set<string>, data: seq<SyncData>): nat
    decreases |data|
  {
    if data == [] then 0
    else
      var prefix := data[..|data| - 1];
      NewIdCount(keys, prefix) + if IdOf(data[|data| - 1]) in keys + IncomingIds(prefix) then 0 else 1
  }

  lemma {:induction false} NewIdCountIsNewIds(keys: set<string>, data: seq<SyncData>)
    ensures NewIdCount(keys, data) == |IncomingIds(data) - keys|
    decreases |data|
  {
    if data != [] {
      var n := |data| - 1;
      var prefix := data[..n];
      assert data[..n + 1] == data;
      IncomingIdsStep(data, n);
      NewIdCountIsNewIds(keys, prefix);
      var id := IdOf(data[n]);
      if id !in keys + IncomingIds(prefix) {
        assert IncomingIds(data) - keys == (IncomingIds(prefix) - keys) + {id};
        AddFreshSize(IncomingIds(prefix) - keys, id);
      } else {
        assert IncomingIds(data) - keys == IncomingIds(prefix) - keys;
      }
    }
  }

  /** Writes the received users over the local ones, counting the ids that
      were new and the data that overwrote an existing entry. */
  method IngestInitialData(users: map<string, Record>, initialSyncData: seq<SyncData>)
    returns (ingested: map<string, Record>, added: nat, modified: nat)
    ensures ingested == Ingest(users, initialSyncData)
    ensures added + modified == |initialSyncData|
    ensures added == NewIdCount(users.Keys, initialSyncData)
  {
    ingested := users;
    added, modified := 0, 0;
    for i := 0 to |initialSyncData|
      invariant ingested == Ingest(users, initialSyncData[..i])
      invariant added + modified == i
      invariant added == NewIdCount(users.Keys, initialSyncData[..i])
    {
      var d := initialSyncData[i];
      var id := IdOf(d);
      assert initialSyncData[..i + 1][..i] == initialSyncData[..i];
      if id in ingested {
        modified := modified + 1;
      } else {
        added := added + 1;
      }
      ingested := ingested[id := RecordFromSpecifics(SpecificsOf(d))];
    }
    assert initialSyncData[..|initialSyncData|] == initialSyncData;
  }

  /** Merges the server's users into the dictionary and starts syncing:
      every received user overwrites (or adds) its entry, every local-only
      user is uploaded as an ADD, the counters are reported, and the queued
      callbacks run with the merged dictionary.  Uploading a local-only user
      demands a non-empty name. */
  method MergeDataAndStartSyncing(s: Service, initialSyncData: seq<SyncData>)
    returns (merged: Service, uploaded: seq<SyncChange>, result: MergeResult, runs: seq<Invocation>)
    requires forall k :: k in s.users && k !in IncomingIds(initialSyncData) ==> s.users[k].name != []
    ensures result.numItemsAdded + result.numItemsModified == |initialSyncData|
    ensures result.numItemsBefore == |s.users| && result.numItemsAfter == |merged.users|
    ensures result.numItemsAfter == result.numItemsBefore + result.numItemsAdded
    ensures result.numItemsAdded == |IncomingIds(initialSyncData) - s.users.Keys|
    ensures merged.users.Keys == s.users.Keys + IncomingIds(initialSyncData)
    ensures forall k :: k in s.users && k !in IncomingIds(initialSyncData) ==> merged.users[k] == s.users[k]
    ensures forall j :: 0 <= j < |initialSyncData| &&
              (forall later :: j < later < |initialSyncData| ==> IdOf(initialSyncData[later]) != IdOf(initialSyncData[j]))
              ==> merged.users[IdOf(initialSyncData[j])] == RecordFromSpecifics(SpecificsOf(initialSyncData[j]))
    ensures |uploaded| == |s.users.Keys - IncomingIds(initialSyncData)|
    ensures forall k :: k in ChangeIds(uploaded) <==> k in s.users && k !in IncomingIds(initialSyncData)
    ensures Distinct(ChangeIds(uploaded))
    ensures forall i :: 0 <= i < |uploaded| ==>
              var id := IdOf(uploaded[i].data);
              && uploaded[i].action == ActionAdd
              && id in s.users
              && uploaded[i].data == CreateSyncDataFromDictionaryEntry(id, s.users[id])
    ensures merged.syncing && merged.callbacks == []
    ensures |runs| == |s.callbacks|
    ensures forall i :: 0 <= i < |runs| ==> runs[i] == Invocation(s.callbacks[i], merged.users)
  {
    var users, added, modified := IngestInitialData(s.users, initialSyncData);
    NewIdCountIsNewIds(s.users.Keys, initialSyncData);
    var incoming := IncomingIds(initialSyncData);
    UnionSize(s.users.Keys, incoming);

    var ids := EnumerateKeys(s.users.Keys - incoming);
    var data := EntriesAsSyncData(s.users, ids);
    uploaded := AsAdds(data);
    assert ChangeIds(uploaded) == ids;

    result := MergeResult(|s.users|, added, modified, |users|);
    var dispatched := DispatchCallbacks(Service(users, true, s.callbacks));
    merged := dispatched.service;
    runs := dispatched.runs;

    forall j | 0 <= j < |initialSyncData| &&
              (forall later :: j < later < |initialSyncData| ==> IdOf(initialSyncData[later]) != IdOf(initialSyncData[j]))
      ensures merged.users[IdOf(initialSyncData[j])] == RecordFromSpecifics(SpecificsOf(initialSyncData[j]))
    {
      IngestLastWriteWins(s.users, initialSyncData, j);
    }
  }

  /** Wraps each datum in an ADD change. */
  function AsAdds(data: seq<SyncData>): (changes: seq<SyncChange>)
    ensures |changes| == |data|
    ensures forall i :: 0 <= i < |data| ==> changes[i] == SyncChange(ActionAdd, data[i])
  {
    seq(|data|, i requires 0 <= i < |data| => SyncChange(ActionAdd, data[i]))
  }

  /** Stops syncing, telling the observers first; the dictionary and the
      callback queue are kept. */
  function StopSyncing(s: Service): (t: Stopped)
    ensures !t.service.syncing
    ensures t.service.users == s.users && t.service.callbacks == s.callbacks
    ensures t.events == [ManagedUsersSyncingStopped]
  {
    Stopped(s.(syncing := false), [ManagedUsersSyncingStopped])
  }

  /** After sync stops, local writes reach no processor. */
  lemma StoppedServiceUploadsNothing(s: Service, id: string)
    requires id in s.users
    ensures var t := StopSyncing(s).service;
            && DeleteManagedUser(t, id).uploaded == []
            && ClearManagedUserAvatar(t, id).uploaded == []
  {
  }

  /** Every stored user as sync data, one per id. */
  method GetAllSyncData(s: Service) returns (data: seq<SyncData>)
    requires forall k :: k in s.users ==> s.users[k].name != []
    ensures |data| == |s.users|
    ensures forall k :: k in DataIds(data) <==> k in s.users
    ensures Distinct(DataIds(data))
    ensures forall i :: 0 <= i < |data| ==>
              var id := IdOf(data[i]);
              && id in s.users
              && RecordFromSpecifics(SpecificsOf(data[i])) == s.users[id].(acknowledged := Some(Acknowledged(s.users[id])))
    ensures forall i :: 0 <= i < |data| ==>
              && data[i] == CreateSyncDataFromDictionaryEntry(IdOf(data[i]), s.users[IdOf(data[i])])
              && data[i].Entity? && data[i].tag == IdOf(data[i])
              && data[i].title == s.users[IdOf(data[i])].name
  {
    var ids := EnumerateKeys(s.users.Keys);
    data := EntriesAsSyncData(s.users, ids);
  }
}

=== FILE: options.dfy ===
/** Optional values: an unset protobuf field, a missing dictionary key or a
    failed parse. */
module Options {

  datatype Option<+T> = None | Some(value: T) {

    /** The wrapped value, or `default` when there is none. */
    function GetOr(default: T): T {
      match this
      case Some(v) => v
      case None => default
    }
  }
}

=== FILE: records.dfy ===
/** The two shapes of a managed user: the record stored in the local
    preference dictionary, and the ManagedUserSpecifics carried by sync data
    (optional protobuf fields, each either set or unset). */
module Records {
  import opened Options
  import opened Decimal
  import opened Avatar

  /** One entry of the managed-users dictionary.  Every writer in the service
      stores all the string keys; `acknowledged` is None when the key is
      absent, which is how a locally created, not yet server-confirmed user is
      recognised. */
  datatype Record = Record(
    name: string,
    acknowledged: Option<bool>,
    masterKey: string,
    chromeAvatar: string,
    chromeOsAvatar: string,
    passwordSignatureKey: string,
    passwordEncryptionKey: string)

  /** The ManagedUserSpecifics message; None is an unset field. */
  datatype ManagedUserSpecifics = ManagedUserSpecifics(
    id: Option<string>,
    name: Option<string>,
    acknowledged: Option<bool>,
    masterKey: Option<string>,
    chromeAvatar: Option<string>,
    chromeOsAvatar: Option<string>,
    passwordSignatureKey: Option<string>,
    passwordEncryptionKey: Option<string>)

  const EmptySpecifics := ManagedUserSpecifics(None, None, None, None, None, None, None, None)

  /** Sync data of the managed-users type: an entity with a client tag, a
      title and specifics, or a deletion that carries only the tag. */
  datatype SyncData =
    | Entity(tag: string, title: string, specifics: ManagedUserSpecifics)
    | Tombstone(tag: string)

  datatype Action = ActionInvalid | ActionAdd | ActionUpdate | ActionDelete

  datatype SyncChange = SyncChange(action: Action, data: SyncData)

  /** Protobuf getters: an unset string field reads as "", an unset bool as
      false. */
  function OrEmpty(o: Option<string>): string {
    o.GetOr([])
  }

  function OrFalse(o: Option<bool>): bool {
    o.GetOr(false)
  }

  /** Sets a string field only when the value is non-empty. */
  function FieldIfNonEmpty(s: string): (o: Option<string>)
    ensures OrEmpty(o) == s
    ensures o != Some([])
  {
    if s == [] then None else Some(s)
  }

  function SpecificsOf(d: SyncData): ManagedUserSpecifics {
    match d
    case Entity(_, _, specifics) => specifics
    case Tombstone(_) => EmptySpecifics
  }

  /** The managed-user id a piece of sync data is about. */
  function IdOf(d: SyncData): string {
    OrEmpty(SpecificsOf(d).id)
  }

  /** Id and name are set; no other string field is set to the empty string;
      `acknowledged` is either unset or true: the shape produced by
      CreateLocalSyncData. */
  predicate Compact(m: ManagedUserSpecifics) {
    && m.id.Some? && m.name.Some?
    && m.masterKey != Some([])
    && m.chromeAvatar != Some([])
    && m.chromeOsAvatar != Some([])
    && m.passwordSignatureKey != Some([])
    && m.passwordEncryptionKey != Some([])
    && m.acknowledged != Some(false)
  }

  /** The dictionary entry built for a newly added or updated user: every
      string key is written, the avatar index is encoded into chromeAvatar,
      chromeOsAvatar is empty, and the `acknowledged` key is NOT written. */
  function CreateDictionary(name: string, masterKey: string, signatureKey: string,
                            encryptionKey: string, avatarIndex: Int32): (r: Record)
    ensures r.acknowledged.None?
    ensures r.name == name && r.masterKey == masterKey
    ensures r.passwordSignatureKey == signatureKey && r.passwordEncryptionKey == encryptionKey
    ensures r.chromeOsAvatar == []
    ensures r.chromeAvatar == BuildAvatarString(avatarIndex)
    ensures forall iconCount: nat :: IsValidIndex(avatarIndex, iconCount) ==>
              GetAvatarIndex(r.chromeAvatar, iconCount) == Some(avatarIndex)
  {
    var r := Record(name, None, masterKey, BuildAvatarString(avatarIndex), [],
                    signatureKey, encryptionKey);
    forall iconCount: nat | IsValidIndex(avatarIndex, iconCount)
      ensures GetAvatarIndex(r.chromeAvatar, iconCount) == Some(avatarIndex)
    {
      ParseInvertsBuild(avatarIndex, iconCount);
    }
    r
  }

  /** Builds sync data for a user, setting only non-empty fields and setting
      `acknowledged` only when true; reading the fields back gives the inputs. */
  function CreateLocalSyncData(id: string, name: string, acknowledged: bool, masterKey: string,
                               chromeAvatar: string, chromeOsAvatar: string,
                               signatureKey: string, encryptionKey: string): (d: SyncData)
    ensures d.Entity? && d.tag == id && d.title == name
    ensures IdOf(d) == id
    ensures Compact(d.specifics)
    ensures OrEmpty(d.specifics.name) == name && OrFalse(d.specifics.acknowledged) == acknowledged
    ensures OrEmpty(d.specifics.masterKey) == masterKey
    ensures OrEmpty(d.specifics.chromeAvatar) == chromeAvatar
    ensures OrEmpty(d.specifics.chromeOsAvatar) == chromeOsAvatar
    ensures OrEmpty(d.specifics.passwordSignatureKey) == signatureKey
    ensures OrEmpty(d.specifics.passwordEncryptionKey) == encryptionKey
  {
    var specifics := ManagedUserSpecifics(
      Some(id), Some(name),
      if acknowledged then Some(true) else None,
      FieldIfNonEmpty(masterKey),
      FieldIfNonEmpty(chromeAvatar),
      FieldIfNonEmpty(chromeOsAvatar),
      FieldIfNonEmpty(signatureKey),
      FieldIfNonEmpty(encryptionKey));
    Entity(id, name, specifics)
  }

  /** The dictionary entry written for a user received from the server: every
      key, including `acknowledged`, is written from the specifics' getters. */
  function RecordFromSpecifics(m: ManagedUserSpecifics): (r: Record)
    ensures r.acknowledged.Some?
  {
    Record(OrEmpty(m.name), Some(OrFalse(m.acknowledged)), OrEmpty(m.masterKey),
           OrEmpty(m.chromeAvatar), OrEmpty(m.chromeOsAvatar),
           OrEmpty(m.passwordSignatureKey), OrEmpty(m.passwordEncryptionKey))
  }

  /** A missing `acknowledged` key reads as false. */
  function Acknowledged(r: Record): bool {
    OrFalse(r.acknowledged)
  }

  /** Sync data for a stored entry.  Storing what it carries gives back the
      entry, except that a missing `acknowledged` key comes back as false. */
  function CreateSyncDataFromDictionaryEntry(id: string, r: Record): (d: SyncData)
    requires r.name != []
    ensures d.Entity? && d.tag == id && d.title == r.name
    ensures IdOf(d) == id
    ensures Compact(d.specifics)
    ensures RecordFromSpecifics(d.specifics) == r.(acknowledged := Some(Acknowledged(r)))
  {
    CreateLocalSyncData(id, r.name, Acknowledged(r), r.masterKey, r.chromeAvatar,
                        r.chromeOsAvatar, r.passwordSignatureKey, r.passwordEncryptionKey)
  }

  /** Storing a received user and re-uploading it is lossless: the uploaded
      specifics store back to the very same entry. */
  lemma StoreThenUploadRoundTrip(id: string, m: ManagedUserSpecifics)
    requires OrEmpty(m.name) != []
    ensures var r := RecordFromSpecifics(m);
            RecordFromSpecifics(CreateSyncDataFromDictionaryEntry(id, r).specifics) == r
  {
  }
}

=== FILE: registry.dfy ===
/** The managed-user sync service's state and its local operations: adding,
    updating, deleting and re-avataring users, queueing callbacks, and
    clearing the registry when the signed-in custodian changes.  The
    preference dictionary is a map from user id to record; being "syncing"
    means a sync change processor is attached, and every change handed to it
    is returned as `uploaded`. */
module Registry {
  import opened Options
  import opened Decimal
  import opened Avatar
  import opened Records

  /** Identity of a queued ManagedUsersCallback. */
  type Callback = nat

  datatype Service = Service(
    users: map<string, Record>,
    syncing: bool,
    callbacks: seq<Callback>)

  /** Notifications sent to the service's observers. */
  datatype Event =
    | ManagedUserAcknowledged(id: string)
    | ManagedUsersChanged
    | ManagedUsersSyncingStopped

  /** A callback run with the dictionary it was given. */
  datatype Invocation = Invocation(callback: Callback, users: map<string, Record>)

  /** The service after a local write, and the changes sent to the sync
      change processor (none when not syncing). */
  datatype Written = Written(service: Service, uploaded: seq<SyncChange>)

  datatype AvatarWritten = AvatarWritten(updated: bool, service: Service, uploaded: seq<SyncChange>)

  datatype Requested = Requested(service: Service, runs: seq<Invocation>)

  /** Stores `CreateDictionary(...)` under `id`.  Adding demands that `id` is
      new, updating that it exists; when syncing, the entry is uploaded as one
      ADD or UPDATE change (which demands a non-empty name). */
  function UpdateManagedUserImpl(s: Service, id: string, name: string, masterKey: string,
                                 signatureKey: string, encryptionKey: string,
                                 avatarIndex: Int32, addUser: bool): (w: Written)
    requires addUser == (id !in s.users)
    requires s.syncing ==> name != []
    ensures w.service.users.Keys == s.users.Keys + {id}
    ensures w.service.users[id] == CreateDictionary(name, masterKey, signatureKey, encryptionKey, avatarIndex)
    ensures forall k :: k in s.users && k != id ==> w.service.users[k] == s.users[k]
    ensures w.service.syncing == s.syncing && w.service.callbacks == s.callbacks
    ensures |w.uploaded| == if s.syncing then 1 else 0
    ensures s.syncing ==>
              && w.uploaded[0].action == (if addUser then ActionAdd else ActionUpdate)
              && IdOf(w.uploaded[0].data) == id
              && RecordFromSpecifics(SpecificsOf(w.uploaded[0].data))
                 == w.service.users[id].(acknowledged := Some(false))
    ensures s.syncing ==>
              && w.uploaded[0].data == CreateSyncDataFromDictionaryEntry(id, w.service.users[id])
              && w.uploaded[0].data.Entity?
              && w.uploaded[0].data.tag == id && w.uploaded[0].data.title == name
  {
    var entry := CreateDictionary(name, masterKey, signatureKey, encryptionKey, avatarIndex);
    var service := s.(users := s.users[id := entry]);
    if !s.syncing then Written(service, [])
    else
      var action := if addUser then ActionAdd else ActionUpdate;
      Written(service, [SyncChange(action, CreateSyncDataFromDictionaryEntry(id, entry))])
  }

  function AddManagedUser(s: Service, id: string, name: string, masterKey: string,
                          signatureKey: string, encryptionKey: string, avatarIndex: Int32): (w: Written)
    requires id !in s.users
    requires s.syncing ==> name != []
    ensures |w.service.users| == |s.users| + 1
    ensures id in w.service.users && w.service.users[id].acknowledged.None?
  {
    UpdateManagedUserImpl(s, id, name, masterKey, signatureKey, encryptionKey, avatarIndex, true)
  }

  function UpdateManagedUser(s: Service, id: string, name: string, masterKey: string,
                             signatureKey: string, encryptionKey: string, avatarIndex: Int32): (w: Written)
    requires id in s.users
    requires s.syncing ==> name != []
    ensures w.service.users.Keys == s.users.Keys
    ensures w.service.users[id].acknowledged.None?
  {
    UpdateManagedUserImpl(s, id, name, masterKey, signatureKey, encryptionKey, avatarIndex, false)
  }

  /** Removes exactly `id`, which must exist; when syncing, uploads one DELETE. */
  function DeleteManagedUser(s: Service, id: string): (w: Written)
    requires id in s.users
    ensures w.service.users.Keys == s.users.Keys - {id}
    ensures |w.service.users| == |s.users| - 1
    ensures forall k :: k in w.service.users ==> w.service.users[k] == s.users[k]
    ensures w.service.syncing == s.syncing && w.service.callbacks == s.callbacks
    ensures w.uploaded == if s.syncing then [SyncChange(ActionDelete, Tombstone(id))] else []
  {
    var service := s.(users := s.users - {id});
    if s.syncing then Written(service, [SyncChange(ActionDelete, Tombstone(id))])
    else Written(service, [])
  }

  /** Deleting a freshly added user restores the dictionary. */
  lemma AddThenDelete(s: Service, id: string, name: string, masterKey: string,
                      signatureKey: string, encryptionKey: string, avatarIndex: Int32)
    requires id !in s.users
    requires s.syncing ==> name != []
    ensures var added := AddManagedUser(s, id, name, masterKey, signatureKey, encryptionKey, avatarIndex);
            DeleteManagedUser(added.service, id).service == s
  {
  }

  /** Re-sending the same update leaves the dictionary as one update did. */
  lemma UpdateIsIdempotent(s: Service, id: string, name: string, masterKey: string,
                           signatureKey: string, encryptionKey: string, avatarIndex: Int32)
    requires id in s.users
    requires s.syncing ==> name != []
    ensures var once := UpdateManagedUser(s, id, name, masterKey, signatureKey, encryptionKey, avatarIndex);
            UpdateManagedUser(once.service, id, name, masterKey, signatureKey, encryptionKey, avatarIndex)
            == once
  {
  }

  /** Sets the avatar of an existing user unless one is already chosen and
      the new index is a real one.  `NoAvatar` clears the avatar; any other
      index is encoded.  All other fields are kept; when syncing, the entry
      is uploaded as one UPDATE. */
  function UpdateManagedUserAvatarIfNeeded(s: Service, id: string, avatarIndex: Int32): (a: AvatarWritten)
    requires id in s.users
    ensures a.updated <==> (s.users[id].chromeAvatar == [] || avatarIndex == NoAvatar)
    ensures !a.updated ==> a.service == s && a.uploaded == []
    ensures a.updated ==>
              a.service == s.(users := s.users[id := s.users[id].(chromeAvatar :=
                if avatarIndex == NoAvatar then [] else BuildAvatarString(avatarIndex))])
    ensures a.updated ==> |a.uploaded| == if s.syncing then 1 else 0
    ensures a.updated && s.syncing ==>
              && a.uploaded[0].action == ActionUpdate
              && IdOf(a.uploaded[0].data) == id
              && RecordFromSpecifics(SpecificsOf(a.uploaded[0].data))
                 == a.service.users[id].(acknowledged := Some(Acknowledged(s.users[id])))
    ensures a.updated && s.syncing ==>
              var e := a.service.users[id];
              && a.uploaded[0].data == CreateLocalSyncData(id, e.name, Acknowledged(e), e.masterKey, e.chromeAvatar,
                                                           e.chromeOsAvatar, e.passwordSignatureKey,
                                                           e.passwordEncryptionKey)
              && a.uploaded[0].data.Entity?
              && a.uploaded[0].data.tag == id && a.uploaded[0].data.title == s.users[id].name
  {
    var entry := s.users[id];
    if entry.chromeAvatar != [] && avatarIndex != NoAvatar then AvatarWritten(false, s, [])
    else
      var chromeAvatar := if avatarIndex == NoAvatar then [] else BuildAvatarString(avatarIndex);
      var service := s.(users := s.users[id := entry.(chromeAvatar := chromeAvatar)]);
      if !s.syncing then AvatarWritten(true, service, [])
      else
        var data := CreateLocalSyncData(id, entry.name, Acknowledged(entry), entry.masterKey,
                                        chromeAvatar, entry.chromeOsAvatar,
                                        entry.passwordSignatureKey, entry.passwordEncryptionKey);
        AvatarWritten(true, service, [SyncChange(ActionUpdate, data)])
  }

  /** Clearing an avatar always succeeds, and the cleared entry reads back as
      having no avatar. */
  function ClearManagedUserAvatar(s: Service, id: string): (w: Written)
    requires id in s.users
    ensures w.service.users.Keys == s.users.Keys
    ensures w.service.users[id] == s.users[id].(chromeAvatar := [])
    ensures forall iconCount: nat :: GetAvatarIndex(w.service.users[id].chromeAvatar, iconCount) == Some(NoAvatar)
    ensures w.service == s.(users := s.users[id := s.users[id].(chromeAvatar := [])])
    ensures |w.uploaded| == if s.syncing then 1 else 0
    ensures s.syncing ==>
              && w.uploaded[0].action == ActionUpdate
              && IdOf(w.uploaded[0].data) == id
              && RecordFromSpecifics(SpecificsOf(w.uploaded[0].data))
                 == w.service.users[id].(acknowledged := Some(Acknowledged(s.users[id])))
    ensures s.syncing ==>
              var e := w.service.users[id];
              && w.uploaded[0].data == CreateLocalSyncData(id, e.name, Acknowledged(e), e.masterKey, e.chromeAvatar,
                                                           e.chromeOsAvatar, e.passwordSignatureKey,
                                                           e.passwordEncryptionKey)
              && w.uploaded[0].data.Entity?
              && w.uploaded[0].data.tag == id && w.uploaded[0].data.title == s.users[id].name
  {
    var a := UpdateManagedUserAvatarIfNeeded(s, id, NoAvatar);
    assert a.updated;
    Written(a.service, a.uploaded)
  }

  /** Once an avatar is set it is never overwritten by another real index,
      and a valid index written into an empty slot reads back as itself. */
  lemma AvatarIsSetOnce(s: Service, id: string, first: Int32, second: Int32, iconCount: nat)
    requires id in s.users && s.users[id].chromeAvatar == []
    requires 0 <= first < iconCount && second != NoAvatar
    ensures var a := UpdateManagedUserAvatarIfNeeded(s, id, first);
            && a.updated
            && GetAvatarIndex(a.service.users[id].chromeAvatar, iconCount) == Some(first)
            && var b := UpdateManagedUserAvatarIfNeeded(a.service, id, second);
               !b.updated && b.service == a.service
  {
  }

  /** A user added with `NoAvatar` stores the encoded string for `NoAvatar`,
      not the empty string, so the guard treats its avatar as chosen: a later
      real index is refused, while clearing still works. */
  lemma AddedWithoutAvatarRefusesAvatar(s: Service, id: string, name: string, masterKey: string,
                                        signatureKey: string, encryptionKey: string,
                                        avatarIndex: Int32, iconCount: nat)
    requires id !in s.users
    requires s.syncing ==> name != []
    requires avatarIndex != NoAvatar
    ensures var added := AddManagedUser(s, id, name, masterKey, signatureKey, encryptionKey, NoAvatar).service;
            && GetAvatarIndex(added.users[id].chromeAvatar, iconCount) == Some(NoAvatar)
            && !UpdateManagedUserAvatarIfNeeded(added, id, avatarIndex).updated
  {
  }

  function GetManagedUsers(s: Service): (r: map<string, Record>)
    requires s.syncing
    ensures r.Keys == s.users.Keys
    ensures forall id :: id in r ==> r[id] == s.users[id]
  {
    s.users
  }

  /** Runs the callback at once with the dictionary when syncing; otherwise
      queues it until syncing starts. */
  function GetManagedUsersAsync(s: Service, callback: Callback): (q: Requested)
    ensures s.syncing ==> q.service == s && q.runs == [Invocation(callback, s.users)]
    ensures !s.syncing ==> q.runs == [] && q.service == s.(callbacks := s.callbacks + [callback])
  {
    if s.syncing then Requested(s, [Invocation(callback, GetManagedUsers(s))])
    else Requested(s.(callbacks := s.callbacks + [callback]), [])
  }

  /** Runs every queued callback, in queue order, with the current
      dictionary, and empties the queue. */
  function DispatchCallbacks(s: Service): (q: Requested)
    ensures q.service == s.(callbacks := [])
    ensures |q.runs| == |s.callbacks|
    ensures forall i :: 0 <= i < |q.runs| ==> q.runs[i] == Invocation(s.callbacks[i], s.users)
  {
    Requested(s.(callbacks := []),
              seq(|s.callbacks|, i requires 0 <= i < |s.callbacks| => Invocation(s.callbacks[i], s.users)))
  }

  /** A change of the last signed-in user, which may only happen while not
      syncing, clears every managed user. */
  function OnLastSignedInUsernameChange(s: Service): (t: Service)
    requires !s.syncing
    ensures t.users == map[]
    ensures t.syncing == s.syncing && t.callbacks == s.callbacks
  {
    s.(users := map[])
  }
}

=== FILE: remote_changes.dfy ===
/** Applying the changes the server sends while syncing: ADD and UPDATE
    overwrite an entry with the server's fields, DELETE removes it, and the
    observers hear when a locally created user gets acknowledged. */
module RemoteChanges {
  import opened Options
  import opened Decimal
  import opened Records
  import opened Registry

  datatype Applied = Applied(users: map<string, Record>, events: seq<Event>)

  datatype Processed = Processed(service: Service, events: seq<Event>)

  predicate IsUpsert(action: Action) {
    action == ActionAdd || action == ActionUpdate
  }

  /** One server change applied to the dictionary.  The acknowledgement
      notification fires when the entry existed without an `acknowledged`
      key; an invalid change does nothing. */
  function ApplyChange(users: map<string, Record>, change: SyncChange): (r: Applied)
    ensures IsUpsert(change.action) ==>
              r.users == users[IdOf(change.data) := RecordFromSpecifics(SpecificsOf(change.data))]
    ensures change.action == ActionDelete ==> r.users == users - {IdOf(change.data)}
    ensures change.action == ActionInvalid ==> r == Applied(users, [])
    ensures ManagedUserAcknowledged(IdOf(change.data)) in r.events <==>
              IsUpsert(change.action) && IdOf(change.data) in users
              && users[IdOf(change.data)].acknowledged.None?
    ensures forall id :: multiset(r.events)[ManagedUserAcknowledged(id)] > 0 ==> id == IdOf(change.data)
    ensures multiset(r.events)[ManagedUserAcknowledged(IdOf(change.data))] <= 1
    ensures ManagedUsersChanged in r.events <==> IsUpsert(change.action)
    ensures IsUpsert(change.action) ==>
              r.events == (if IdOf(change.data) in users && users[IdOf(change.data)].acknowledged.None?
                           then [ManagedUserAcknowledged(IdOf(change.data))] else [])
                          + [ManagedUsersChanged]
    ensures change.action == ActionDelete ==> r.events == []
  {
    var m := SpecificsOf(change.data);
    var id := IdOf(change.data);
    match change.action
    case ActionAdd | ActionUpdate =>
      var acknowledgement :=
        if id in users && users[id].acknowledged.None? then [ManagedUserAcknowledged(id)] else [];
      Applied(users[id := RecordFromSpecifics(m)], acknowledgement + [ManagedUsersChanged])
    case ActionDelete => Applied(users - {id}, [])
    case ActionInvalid => Applied(users, [])
  }

  /** The debug checks on one change: it is not invalid, a server item is
      acknowledged, ADD is for a new id and UPDATE for an existing one, and
      DELETE is for an existing id. */
  predicate ExpectedChange(users: map<string, Record>, change: SyncChange) {
    match change.action
    case ActionAdd => OrFalse(SpecificsOf(change.data).acknowledged) && IdOf(change.data) !in users
    case ActionUpdate => OrFalse(SpecificsOf(change.data).acknowledged) && IdOf(change.data) in users
    case ActionDelete => IdOf(change.data) in users
    case ActionInvalid => false
  }

  /** Every change of the list passes the debug checks in the dictionary its
      predecessors leave. */
  predicate ExpectedChanges(users: map<string, Record>, changes: seq<SyncChange>)
    decreases |changes|
  {
    changes == [] ||
    (ExpectedChange(users, changes[0]) && ExpectedChanges(ApplyChange(users, changes[0]).users, changes[1..]))
  }

  /** The changes applied in list order.  An entry the list leaves without an
      `acknowledged` key is one it never wrote. */
  function ApplyChanges(users: map<string, Record>, changes: seq<SyncChange>): (r: Applied)
    ensures forall id :: id in r.users && r.users[id].acknowledged.None? ==>
              id in users && r.users[id] == users[id]
    decreases |changes|
  {
    if changes == [] then Applied(users, [])
    else
      var first := ApplyChange(users, changes[0]);
      var rest := ApplyChanges(first.users, changes[1..]);
      Applied(rest.users, first.events + rest.events)
  }

  function CountAction(changes: seq<SyncChange>, action: Action): nat
    decreases |changes|
  {
    if changes == [] then 0
    else (if changes[0].action == action then 1 else 0) + CountAction(changes[1..], action)
  }

  lemma InsertSize(users: map<string, Record>, id: string, r: Record)
    requires id !in users
    ensures |users[id := r]| == |users| + 1
  {
  }

  lemma RemoveSize(users: map<string, Record>, id: string)
    requires id in users
    ensures |users - {id}| == |users| - 1
  {
  }

  /** Under the debug checks every ADD grows the dictionary by one entry and
      every DELETE shrinks it by one. */
  lemma {:induction false} SizeAccounting(users: map<string, Record>, changes: seq<SyncChange>)
    requires ExpectedChanges(users, changes)
    ensures |ApplyChanges(users, changes).users| ==
            |users| + CountAction(changes, ActionAdd) - CountAction(changes, ActionDelete)
    decreases |changes|
  {
    if changes != [] {
      var change := changes[0];
      var id := IdOf(change.data);
      var first := ApplyChange(users, change);
      SizeAccounting(first.users, changes[1..]);
      match change.action
      case ActionAdd =>
        InsertSize(users, id, RecordFromSpecifics(SpecificsOf(change.data)));
      case ActionUpdate =>
        assert first.users.Keys == users.Keys;
      case ActionDelete =>
        RemoveSize(users, id);
    }
  }

  /** Within one batch the acknowledgement notification fires at most once
      per user, and only for a user that was stored without the
      `acknowledged` key before the batch. */
  lemma {:induction false} AcknowledgedAtMostOnce(users: map<string, Record>, changes: seq<SyncChange>, id: string)
    ensures var r := ApplyChanges(users, changes);
            && multiset(r.events)[ManagedUserAcknowledged(id)] <= 1
            && (multiset(r.events)[ManagedUserAcknowledged(id)] > 0 ==>
                  id in users && users[id].acknowledged.None?)
    decreases |changes|
  {
    if changes != [] {
      var change := changes[0];
      var first := ApplyChange(users, change);
      var rest := ApplyChanges(first.users, changes[1..]);
      AcknowledgedAtMostOnce(first.users, changes[1..], id);
      var e := ManagedUserAcknowledged(id);
      assert multiset(first.events + rest.events)[e] == multiset(first.events)[e] + multiset(rest.events)[e];
      if multiset(rest.events)[e] > 0 {
        // `id` is stored unacknowledged after the first change, so that
        // change did not write it and did not notify about it.
        assert id != IdOf(change.data) || change.action == ActionInvalid;
        assert multiset(first.events)[e] == 0;
      }
    }
  }

  /** No change of the list is about `id`. */
  predicate NotAbout(changes: seq<SyncChange>, id: string) {
    forall k :: 0 <= k < |changes| ==> IdOf(changes[k].data) != id
  }

  /** No later change of the list is about the id change `j` is about. */
  predicate LastAbout(changes: seq<SyncChange>, j: nat)
    requires j < |changes|
  {
    forall k :: j < k < |changes| ==> IdOf(changes[k].data) != IdOf(changes[j].data)
  }

  /** No earlier change of the list is about the id change `j` is about. */
  predicate FirstAbout(changes: seq<SyncChange>, j: nat)
    requires j < |changes|
  {
    forall k :: 0 <= k < j ==> IdOf(changes[k].data) != IdOf(changes[j].data)
  }

  /** A user no change is about keeps its entry, or stays absent, and is
      not reported as acknowledged. */
  lemma {:induction false} UntouchedEntryKept(users: map<string, Record>, changes: seq<SyncChange>, id: string)
    requires NotAbout(changes, id)
    ensures var r := ApplyChanges(users, changes);
            && (id in r.users <==> id in users)
            && (id in users ==> r.users[id] == users[id])
            && ManagedUserAcknowledged(id) !in r.events
    decreases |changes|
  {
    if changes != [] {
      var first := ApplyChange(users, changes[0]);
      assert NotAbout(changes[1..], id) by {
        forall k | 0 <= k < |changes[1..]| ensures IdOf(changes[1..][k].data) != id {
          assert changes[1..][k] == changes[k + 1];
        }
      }
      UntouchedEntryKept(first.users, changes[1..], id);
    }
  }

  /** The last change about a user decides its entry: after an ADD or
      UPDATE the entry holds the server's fields, after a DELETE there is
      none. */
  lemma {:induction false} LastChangeDecides(users: map<string, Record>, changes: seq<SyncChange>, j: nat)
    requires j < |changes| && LastAbout(changes, j)
    requires changes[j].action != ActionInvalid
    ensures var r := ApplyChanges(users, changes);
            var id := IdOf(changes[j].data);
            if IsUpsert(changes[j].action)
            then id in r.users && r.users[id] == RecordFromSpecifics(SpecificsOf(changes[j].data))
            else id !in r.users
    decreases |changes|
  {
    var first := ApplyChange(users, changes[0]);
    var tail := changes[1..];
    if j == 0 {
      assert NotAbout(tail, IdOf(changes[0].data)) by {
        forall k | 0 <= k < |tail| ensures IdOf(tail[k].data) != IdOf(changes[0].data) {
          assert tail[k] == changes[k + 1];
        }
      }
      UntouchedEntryKept(first.users, tail, IdOf(changes[0].data));
    } else {
      assert tail[j - 1] == changes[j];
      assert LastAbout(tail, j - 1) by {
        forall k | j - 1 < k < |tail| ensures IdOf(tail[k].data) != IdOf(tail[j - 1].data) {
          assert tail[k] == changes[k + 1];
        }
      }
      LastChangeDecides(first.users, tail, j - 1);
    }
  }

  /** The first ADD or UPDATE about a user stored without the `acknowledged`
      key reports the acknowledgement. */
  lemma {:induction false} FirstUpsertAcknowledges(users: map<string, Record>, changes: seq<SyncChange>, j: nat)
    requires j < |changes| && FirstAbout(changes, j) && IsUpsert(changes[j].action)
    requires IdOf(changes[j].data) in users && users[IdOf(changes[j].data)].acknowledged.None?
    ensures ManagedUserAcknowledged(IdOf(changes[j].data)) in ApplyChanges(users, changes).events
    decreases |changes|
  {
    var id := IdOf(changes[j].data);
    var first := ApplyChange(users, changes[0]);
    var tail := changes[1..];
    var rest := ApplyChanges(first.users, tail);
    assert ApplyChanges(users, changes).events == first.events + rest.events;
    if j == 0 {
      assert ManagedUserAcknowledged(id) in first.events;
    } else {
      assert IdOf(changes[0].data) != id;
      assert id in first.users && first.users[id] == users[id];
      assert tail[j - 1] == changes[j];
      assert FirstAbout(tail, j - 1) by {
        forall k | 0 <= k < j - 1 ensures IdOf(tail[k].data) != IdOf(tail[j - 1].data) {
          assert tail[k] == changes[k + 1];
        }
      }
      FirstUpsertAcknowledges(first.users, tail, j - 1);
    }
  }

  /** Every ADD and every UPDATE of the batch, and nothing else, reports
      one change notification. */
  lemma {:induction false} ChangedCount(users: map<string, Record>, changes: seq<SyncChange>)
    ensures multiset(ApplyChanges(users, changes).events)[ManagedUsersChanged]
            == CountAction(changes, ActionAdd) + CountAction(changes, ActionUpdate)
    decreases |changes|
  {
    if changes != [] {
      var change := changes[0];
      var first := ApplyChange(users, change);
      var rest := ApplyChanges(first.users, changes[1..]);
      ChangedCount(first.users, changes[1..]);
      assert multiset(first.events + rest.events)[ManagedUsersChanged]
             == multiset(first.events)[ManagedUsersChanged] + multiset(rest.events)[ManagedUsersChanged];
      if IsUpsert(change.action) {
        var id := IdOf(change.data);
        var acknowledgement :=
          if id in users && users[id].acknowledged.None? then [ManagedUserAcknowledged(id)] else [];
        assert first.events == acknowledgement + [ManagedUsersChanged];
        assert multiset(first.events)[ManagedUsersChanged] == 1;
      } else {
        assert first.events == [];
      }
    }
  }

  /** In a batch without invalid changes, an acknowledgement is reported
      only for a user whose first change in the batch is an ADD or UPDATE. */
  lemma {:induction false} AckNeedsFirstUpsert(users: map<string, Record>, changes: seq<SyncChange>, id: string)
    requires forall k :: 0 <= k < |changes| ==> changes[k].action != ActionInvalid
    ensures ManagedUserAcknowledged(id) in ApplyChanges(users, changes).events ==>
              exists j: nat :: j < |changes| && FirstAbout(changes, j)
                               && IdOf(changes[j].data) == id && IsUpsert(changes[j].action)
    decreases |changes|
  {
    var e := ManagedUserAcknowledged(id);
    if changes != [] && e in ApplyChanges(users, changes).events {
      var first := ApplyChange(users, changes[0]);
      var tail := changes[1..];
      var rest := ApplyChanges(first.users, tail);
      assert ApplyChanges(users, changes).events == first.events + rest.events;
      if IdOf(changes[0].data) == id && IsUpsert(changes[0].action) {
        assert FirstAbout(changes, 0);
      } else if e in first.events {
        assert false;
      } else {
        assert e in rest.events;
        if IdOf(changes[0].data) == id {
          // A DELETE removed the user, so the rest of the batch cannot
          // report it acknowledged.
          assert id !in first.users;
          AcknowledgedAtMostOnce(first.users, tail, id);
          assert false;
        }
        assert forall k :: 0 <= k < |tail| ==> tail[k] == changes[k + 1];
        AckNeedsFirstUpsert(first.users, tail, id);
        var j: nat :| j < |tail| && FirstAbout(tail, j) && IdOf(tail[j].data) == id && IsUpsert(tail[j].action);
        assert FirstAbout(changes, j + 1) by {
          forall k | 0 <= k < j + 1 ensures IdOf(changes[k].data) != IdOf(changes[j + 1].data) {
            if k > 0 {
              assert changes[k] == tail[k - 1];
            }
          }
        }
      }
    }
  }

  /** The only notifications are acknowledgements and change notifications,
      and every acknowledgement is immediately followed by the change
      notification of the same write. */
  predicate NotificationsPaired(events: seq<Event>) {
    && (forall i :: 0 <= i < |events| ==> events[i] == ManagedUsersChanged || events[i].ManagedUserAcknowledged?)
    && (forall i :: 0 <= i < |events| && events[i].ManagedUserAcknowledged? ==>
          i + 1 < |events| && events[i + 1] == ManagedUsersChanged)
  }

  lemma PairedConcat(a: seq<Event>, b: seq<Event>)
    requires NotificationsPaired(a) && NotificationsPaired(b)
    ensures NotificationsPaired(a + b)
  {
  }


  /** The batch notifies nothing but acknowledgements and changes, and
      each acknowledgement comes right before the change notification of
      the write that caused it. */
  lemma {:induction false} EventsArePaired(users: map<string, Record>, changes: seq<SyncChange>)
    ensures NotificationsPaired(ApplyChanges(users, changes).events)
    decreases |changes|
  {
    if changes != [] {
      var first := ApplyChange(users, changes[0]);
      var rest := ApplyChanges(first.users, changes[1..]);
      EventsArePaired(first.users, changes[1..]);
      assert NotificationsPaired(first.events);
      PairedConcat(first.events, rest.events);
    }
  }

  /** The debug checks rule out invalid changes. */
  lemma {:induction false} ExpectedChangesAreValid(users: map<string, Record>, changes: seq<SyncChange>, j: nat)
    requires ExpectedChanges(users, changes) && j < |changes|
    ensures changes[j].action != ActionInvalid
    decreases |changes|
  {
    if j > 0 {
      assert changes[1..][j - 1] == changes[j];
      ExpectedChangesAreValid(ApplyChange(users, changes[0]).users, changes[1..], j - 1);
    }
  }

  /** ManagedUserSyncService::ProcessSyncChanges: applies the server's
      changes, which must pass the debug checks, and reports the
      notifications in order. */
  function ProcessSyncChanges(s: Service, changes: seq<SyncChange>): (p: Processed)
    requires ExpectedChanges(s.users, changes)
    ensures p.service.syncing == s.syncing && p.service.callbacks == s.callbacks
    ensures |p.service.users| == |s.users| + CountAction(changes, ActionAdd) - CountAction(changes, ActionDelete)
    ensures forall id :: multiset(p.events)[ManagedUserAcknowledged(id)] <= 1
    ensures forall id :: ManagedUserAcknowledged(id) in p.events ==>
              id in s.users && s.users[id].acknowledged.None?
    ensures forall j: nat :: j < |changes| && FirstAbout(changes, j) && IsUpsert(changes[j].action)
              && IdOf(changes[j].data) in s.users && s.users[IdOf(changes[j].data)].acknowledged.None?
              ==> ManagedUserAcknowledged(IdOf(changes[j].data)) in p.events
    ensures forall id :: NotAbout(changes, id) ==>
              && (id in p.service.users <==> id in s.users)
              && (id in s.users ==> p.service.users[id] == s.users[id])
    ensures forall j: nat :: j < |changes| && LastAbout(changes, j) ==>
              if IsUpsert(changes[j].action)
              then IdOf(changes[j].data) in p.service.users
                   && p.service.users[IdOf(changes[j].data)] == RecordFromSpecifics(SpecificsOf(changes[j].data))
              else IdOf(changes[j].data) !in p.service.users
    ensures multiset(p.events)[ManagedUsersChanged]
            == CountAction(changes, ActionAdd) + CountAction(changes, ActionUpdate)
    ensures forall id :: ManagedUserAcknowledged(id) in p.events ==>
              exists j: nat :: j < |changes| && FirstAbout(changes, j)
                               && IdOf(changes[j].data) == id && IsUpsert(changes[j].action)
    ensures forall i :: 0 <= i < |p.events| ==> p.events[i] == ManagedUsersChanged || p.events[i].ManagedUserAcknowledged?
    ensures forall i :: 0 <= i < |p.events| && p.events[i].ManagedUserAcknowledged? ==>
              i + 1 < |p.events| && p.events[i + 1] == ManagedUsersChanged
  {
    var r := ApplyChanges(s.users, changes);
    SizeAccounting(s.users, changes);
    forall id ensures multiset(r.events)[ManagedUserAcknowledged(id)] <= 1
      && (ManagedUserAcknowledged(id) in r.events ==> id in s.users && s.users[id].acknowledged.None?)
    {
      AcknowledgedAtMostOnce(s.users, changes, id);
    }
    forall j: nat | j < |changes| && FirstAbout(changes, j) && IsUpsert(changes[j].action)
      && IdOf(changes[j].data) in s.users && s.users[IdOf(changes[j].data)].acknowledged.None?
      ensures ManagedUserAcknowledged(IdOf(changes[j].data)) in r.events
    {
      FirstUpsertAcknowledges(s.users, changes, j);
    }
    forall id | NotAbout(changes, id)
      ensures (id in r.users <==> id in s.users) && (id in s.users ==> r.users[id] == s.users[id])
    {
      UntouchedEntryKept(s.users, changes, id);
    }
    forall j: nat | j < |changes| && LastAbout(changes, j)
      ensures if IsUpsert(changes[j].action)
              then IdOf(changes[j].data) in r.users
                   && r.users[IdOf(changes[j].data)] == RecordFromSpecifics(SpecificsOf(changes[j].data))
              else IdOf(changes[j].data) !in r.users
    {
      ExpectedChangesAreValid(s.users, changes, j);
      LastChangeDecides(s.users, changes, j);
    }
    ChangedCount(s.users, changes);
    EventsArePaired(s.users, changes);
    forall k | 0 <= k < |changes| ensures changes[k].action != ActionInvalid {
      ExpectedChangesAreValid(s.users, changes, k);
    }
    forall id ensures ManagedUserAcknowledged(id) in r.events ==>
              exists j: nat :: j < |changes| && FirstAbout(changes, j)
                               && IdOf(changes[j].data) == id && IsUpsert(changes[j].action)
    {
      AckNeedsFirstUpsert(s.users, changes, id);
    }
    Processed(s.(users := r.users), r.events)
  }

  /** A user added locally is stored without the `acknowledged` key, so the
      server's first UPDATE for it notifies the observers and records the
      acknowledgement. */
  lemma LocallyAddedUserGetsAcknowledged(s: Service, id: string, name: string, masterKey: string,
                                         signatureKey: string, encryptionKey: string,
                                         avatarIndex: Int32, server: SyncData)
    requires id !in s.users
    requires s.syncing ==> name != []
    requires IdOf(server) == id && OrFalse(SpecificsOf(server).acknowledged)
    ensures var added := AddManagedUser(s, id, name, masterKey, signatureKey, encryptionKey, avatarIndex).service;
            && ExpectedChanges(added.users, [SyncChange(ActionUpdate, server)])
            && var p := ProcessSyncChanges(added, [SyncChange(ActionUpdate, server)]);
               && p.events == [ManagedUserAcknowledged(id), ManagedUsersChanged]
               && id in p.service.users && p.service.users[id].acknowledged == Some(true)
  {
    var added := AddManagedUser(s, id, name, masterKey, signatureKey, encryptionKey, avatarIndex).service;
    var changes := [SyncChange(ActionUpdate, server)];
    var first := ApplyChange(added.users, changes[0]);
    assert changes[1..] == [];
    assert ExpectedChanges(first.users, changes[1..]);
    assert ApplyChanges(added.users, changes) == Applied(first.users, first.events + []);
    assert first.events == [ManagedUserAcknowledged(id), ManagedUsersChanged];
  }
}
